=== FILE: README.md ===
# A2-F1 camera pipeline — a Dafny model

This project models the decision logic of the A2-F1 robot's camera
pipeline, in four parts:

- **The camera daemon** (`camdaemon/camdaemon.py`), module `CamDaemon`.
  It covers:
  - the fake camera's cyclic 1..10 canned-image counter;
  - the capture loop's 0..99 sequence number and its `imageNN.jpg` file names;
  - the activation flag that `client_count` messages set and clear;
  - the capture loop as a step function over that flag;
  - camera selection from `usecamera`;
  - the "create the output directory unless it exists" rule;
  - the classification of the failures that end a connection attempt.

  The asyncio tasks are replaced by an explicit event sequence.
  `Received(msg)` is the message task handling one decoded message.
  `CameraTurn` is the capture task running from one suspension point to the
  next.
- **The coordinator's camera hub** (`cpanel/cam.js`), module `CamHub`.
  It covers:
  - the viewer count;
  - the ordered list of daemon ("manager") connections;
  - the localhost-only acceptance rule;
  - the count broadcasts;
  - the rule that turns image file names into viewer URLs.

  Each handler returns the new hub and the list of messages it sends.
- **The web client console** (`webclient/htdocs/js/main.js`), module
  `WebConsole`. It covers the `rcons` print functions over a text buffer.
  It also covers the connection-status handlers, as transitions over
  `connection_ok`, `connection_ever_ok` and `reconnect_error`.
- **The configuration merge** (`etc/expand.js`), module `ConfigMerge`:
  the static value is kept when it is truthy, and the runtime value is used
  otherwise.

Module `Values` holds the shared decoded-JSON value type and the rules for
Python and JavaScript truthiness, for JavaScript's `toString`, and for
decimal formatting. Module `Pipeline` connects the hub's messages to the
daemon.

Notes on the code as written:
- The camera is not reference-counted. Each activation enters a fresh
  camera (`with getcam() as camera`, camdaemon.py:64). So the fake camera's
  counter restarts at 1 on every activation, while the sequence number
  carries on.
- Camera selection uses plain Python truthiness of `usecamera`. Any
  non-empty string, `"if-enabled"` included, selects the real camera. No
  value is rejected, and a missing key raises `KeyError`.
- The activation flag outlives reconnections (camdaemon.py:106). The
  capture task, and with it the sequence number, is created afresh for each
  connection (camdaemon.py:114-115).
- A JavaScript `toString` on `undefined` or `null` raises `TypeError`. The
  handler then stops part-way and keeps the text it had already written.
  This happens, for example, when `reconnect_failed` arrives before any
  `reconnect_error`. The model records whether a handler raised.

## Model

| member | source | states |
|---|---|---|
| CamDaemon.EnterFake | camdaemon/camdaemon.py:34-36 | entering the fake camera selects canned image 1 |
| CamDaemon.FixtureName | camdaemon/camdaemon.py:45 | for a serial in [1,10] the canned image's file is 12 characters: `motion`, two digits that read back as the serial, then `.jpg` |
| CamDaemon.CaptureFake | camdaemon/camdaemon.py:42-47 | a fake capture copies canned image number `serial` (file `motionNN.jpg`); the serial goes up by one and wraps from 10 to 1, so it stays in [1,10] |
| CamDaemon.CaptureFakeTimesSerial | camdaemon/camdaemon.py:47 | after k captures the serial is ((s-1+k) mod 10)+1, and it stays in range |
| CamDaemon.FakeCycle | camdaemon/camdaemon.py:35-47 | the fake camera returns to its starting state exactly after a multiple of 10 captures |
| CamDaemon.CaptureFilename | camdaemon/camdaemon.py:67 | for a sequence number in [0,99] the file name is 11 characters: `image`, two digits that read back as the number, then `.jpg` |
| CamDaemon.CaptureFilenameInjective | camdaemon/camdaemon.py:67 | distinct sequence numbers give distinct file names |
| Values.ZeroPad2 | camdaemon/camdaemon.py:67 | `%02i` of a number in [0,99] is exactly two digits whose decimal value is the number |
| CamDaemon.NextSerial | camdaemon/camdaemon.py:72 | the next sequence number is in [0,99]; it goes up by one, and 99 wraps to 0 |
| CamDaemon.HandleServerMessage | camdaemon/camdaemon.py:84-90 | a message with `client_count` sets the flag iff the count is not zero (Python `==`); any other message leaves the flag alone |
| CamDaemon.FlagFollowsLatestCount | camdaemon/camdaemon.py:78-90 | after any message sequence the flag equals "the latest count is non-zero", or keeps its old value when no message had a count |
| CamDaemon.ActivationFromStart | camdaemon/camdaemon.py:84-90 | from the initial cleared flag, the flag is set iff the most recent message with a count had a non-zero count |
| CamDaemon.GetCam | camdaemon/camdaemon.py:50-54 | the real camera iff `usecamera` is truthy in Python's sense, the fake camera otherwise; a missing key is a `KeyError` |
| CamDaemon.SelectionDecidesFixture | camdaemon/camdaemon.py:50-54 | the first capture of an activation copies a canned image exactly when `usecamera` is falsy in Python's sense |
| CamDaemon.EnterCamera | camdaemon/camdaemon.py:64 | entering a camera scope yields the fake camera at serial 1 exactly when the fake one was chosen |
| CamDaemon.StartCaptureLoop | camdaemon/camdaemon.py:59 | a new capture task starts in standby with sequence number 0 |
| CamDaemon.Notification | camdaemon/camdaemon.py:70 | the notification is the one-key object `{"image": filename}`, the file name being the one the capture's sequence number gives |
| CamDaemon.StepCaptureLoop | camdaemon/camdaemon.py:61-74 | a flag seen set at the loop head gives exactly one capture under the current sequence number, then advances it; entering from standby uses canned image 1 with the fake camera; a flag seen clear leaves the camera scope and keeps the number |
| CamDaemon.SessionFlag | camdaemon/camdaemon.py:114-117 | however the two tasks interleave, the flag ends as the messages alone decide |
| CamDaemon.SessionCaptures | camdaemon/camdaemon.py:58-74 | one capture per camera turn that finds the flag set; captures carry consecutive sequence numbers modulo 100 from the loop's current one; standby periods do not reset the number |
| CamDaemon.CameraTurnCaptures | camdaemon/camdaemon.py:66-73 | the camera-turn case of the above: a turn with the flag set adds one capture, named by the current number, in front of the rest |
| CamDaemon.FakeActivationFixtures | camdaemon/camdaemon.py:64-68 | in an activation that starts from standby with the flag set, capture k copies canned image (k mod 10)+1, over any interleaving of camera turns and messages none of which clears the flag |
| CamDaemon.NewConnection | camdaemon/camdaemon.py:106-115 | a new connection keeps the flag, and starts a new capture task in standby at sequence number 0 |
| CamDaemon.FirstCaptureOfConnection | camdaemon/camdaemon.py:59-67 | the first capture of every connection is `image00.jpg` |
| CamDaemon.Mkdir | camdaemon/camdaemon.py:99 | `os.mkdir` raises the reported error, else EEXIST when anything (a directory or another entry) is at the path, else adds the directory |
| CamDaemon.PrepareCamDir | camdaemon/camdaemon.py:98-102 | with no OS error and nothing but possibly a directory at the path, the directory exists afterwards; when a non-directory is at the path (or the system reports EEXIST) the error is swallowed and start-up goes on with the directories unchanged; any other errno is re-raised unchanged |
| CamDaemon.ClassifyFailure | camdaemon/camdaemon.py:119-128 | refused and invalid-handshake connections retry after 5, a closed connection retries after 1, and anything else propagates unchanged |
| CamDaemon.Drive | camdaemon/camdaemon.py:108-128 | across successive attempts the daemon sleeps the classified delay after each failure, and stops at exactly the first unclassified failure, which it propagates; a failure it stops at is always unclassified |
| CamHub.NewHub | cpanel/cam.js:10-15 | a new hub has no viewers and no managers |
| CamHub.BroadcastTo | cpanel/cam.js:49-53 | one count message per manager, in list order, each carrying the same count |
| CamHub.BroadcastClientCount | cpanel/cam.js:49-53 | the hub's current viewer count goes to each of its managers, in list order |
| CamHub.ManagerAcceptance | cpanel/cam.js:55-60 | a remote address other than 127.0.0.1, or an `x-forwarded-for` other than 127.0.0.1, is refused; a local connection with no forwarding header, or with one naming 127.0.0.1, is accepted, whatever other headers it carries |
| CamHub.OnManagerConnect | cpanel/cam.js:62-74 | a refused manager is terminated and the hub is unchanged; an accepted one is appended, and every manager, the new one last, gets the current count |
| CamHub.OnManagerMessage | cpanel/cam.js:76-82 | a message with `image` gives exactly one viewer emission, whose URL is the prefix followed by the file name; other messages give none |
| CamHub.IndexOf | cpanel/cam.js:95 | `indexOf`: the position of the first occurrence, or -1 exactly when the socket is absent |
| CamHub.RemoveManager | cpanel/cam.js:94-98 | only the first occurrence is removed and the others keep their order; nothing changes when the socket is absent; the multiset loses exactly one copy |
| CamHub.RemoveManagerIsRemoveFirst | cpanel/cam.js:94-98 | the index-and-splice removal equals an element-by-element "drop the first match" definition |
| CamHub.RemoveDistinctManager | cpanel/cam.js:84-98 | with distinct managers, the removed one is gone, and a second removal (error then close) changes nothing |
| CamHub.OnManagerGone | cpanel/cam.js:84-92 | a manager error or close removes it and leaves the viewer count alone |
| CamHub.OnClientChange | cpanel/cam.js:108-126 | a viewer connect adds 1 and an error or disconnect subtracts 1, with no lower bound; the new count goes to every manager; the manager list is unchanged |
| CamHub.Handle | cpanel/cam.js:62-126 | viewer events never change the manager list, and manager events never change the count; every viewer event and every keep-alive tick broadcasts the current count |
| CamHub.ClientCountTracksEvents | cpanel/cam.js:108-126 | after any event sequence, count = initial + viewer connects − viewer errors and disconnects |
| CamHub.ClientEventsKeepManagers | cpanel/cam.js:108-126 | a run of viewer events leaves the manager list unchanged |
| CamHub.ImagesComeFromManagers | cpanel/cam.js:76-82 | over any event sequence, the number of viewer image emissions equals the number of manager messages with an `image` key |
| CamHub.HandleManagers | cpanel/cam.js:62-74 | one event lists no socket besides those already listed and the one it accepts |
| CamHub.ManagersWereAccepted | cpanel/cam.js:62-74 | over any event sequence, every listed manager was listed before or was connected by a request the acceptance rule admits: a refused manager is never listed |
| Values.JsToString | webclient/htdocs/js/main.js:14 | `toString` raises exactly on `undefined` and `null`; strings are themselves and integers are their decimal text |
| Values.JsConcatText | cpanel/cam.js:80 | string concatenation's text of a value: `undefined` and `null` become their names, every other value its `toString` |
| WebConsole.StringifyArgs | webclient/htdocs/js/main.js:12-15 | the conversion loop succeeds iff every argument has a `toString`, and then gives each argument's text, in order |
| WebConsole.PrintCommon | webclient/htdocs/js/main.js:8-22 | output is appended after the old buffer: the arguments' text joined by single spaces, then the terminator; it raises, writing nothing, iff some argument cannot be converted |
| WebConsole.Print | webclient/htdocs/js/main.js:32-34 | `print` raises iff some argument cannot be converted; otherwise it appends exactly the arguments' texts joined by single spaces, then a newline |
| WebConsole.Princ | webclient/htdocs/js/main.js:29-31 | `princ` raises iff some argument cannot be converted; otherwise it appends exactly the arguments' space-joined text |
| WebConsole.PrintIsPrincThenNewline | webclient/htdocs/js/main.js:29-34 | `print` succeeds iff `princ` does, and then writes the same text followed by one newline |
| WebConsole.JoinSnoc | webclient/htdocs/js/main.js:17 | joining one more part adds exactly one separator and that part |
| WebConsole.PrintLabelled | webclient/htdocs/js/main.js:29-34 | `print(text, v)` appends the text, one space, v's text and a newline, and raises iff v is `undefined` or `null` |
| WebConsole.PrintText | webclient/htdocs/js/main.js:29-34 | `print`/`princ` of plain text appends it, then `"\n"` or nothing |
| WebConsole.Terpri | webclient/htdocs/js/main.js:23-28 | `"\n"` is appended iff the buffer does not already end with one; afterwards it does |
| WebConsole.TerpriIdempotent | webclient/htdocs/js/main.js:23-28 | two `terpri` calls equal one |
| WebConsole.Init | webclient/htdocs/js/main.js:88-93 | start-up appends the boot lines; the client is not connected, has never been connected, and has no stored error |
| WebConsole.OnConnect | webclient/htdocs/js/main.js:97-101 | `connect` sets both flags and appends " connected." and ends the line; it continues whatever line is open, such as the boot `Connecting` line |
| WebConsole.OnError | webclient/htdocs/js/main.js:102-105 | `error` ends the line, then prints the reason; only the buffer changes |
| WebConsole.OnReconnecting | webclient/htdocs/js/main.js:108-114 | the "lost" line is written only when `connection_ok` is set, and the flag is then cleared; otherwise nothing changes |
| WebConsole.OnReconnectFailed | webclient/htdocs/js/main.js:115-123 | after an earlier connection, "Failed to reconnect"; otherwise `terpri` and then "Failed to connect"; both carry the latest stored error and end with "Connection offline."; it raises iff that error is `undefined` or `null` |
| WebConsole.OnReconnectError | webclient/htdocs/js/main.js:124-127 | `reconnect_error` only stores the reason and writes nothing |
| WebConsole.OnConsoleMessage | webclient/htdocs/js/main.js:129-131 | a `console` message appends its text and a newline, continuing any open line; it raises on `undefined` or `null` |
| WebConsole.Handle | webclient/htdocs/js/main.js:97-131 | every handler only appends to the buffer; `connection_ever_ok` is never reset; only `connect` sets either flag; `ok` implies `ever_ok` is preserved |
| WebConsole.RunAppendsOnly | webclient/htdocs/js/main.js:97-131 | over any event sequence the old buffer stays a prefix of the new one |
| WebConsole.EverOkIffConnected | webclient/htdocs/js/main.js:91-101 | after any event sequence, `connection_ever_ok` holds iff it held before or a `connect` occurred |
| WebConsole.LostAtMostOncePerConnection | webclient/htdocs/js/main.js:108-114 | over any event sequence, the "lost" lines number at most the `connect` events, plus one if the client was connected at the start |
| ConfigMerge.Pick | etc/expand.js:18 | the static value when it is truthy, the runtime value otherwise (a missing static key counts as falsy) |
| ConfigMerge.Merge | etc/expand.js:17-18 | the keys are the union of the static and runtime keys; runtime keys get the picked value; other keys keep their static value |
| ConfigMerge.MergeLoop | etc/expand.js:17-18 | the in-place loop over the runtime keys, in any enumeration order, yields exactly the merge |
| ConfigMerge.TruthyStaticWins | etc/expand.js:18 | a truthy static value is never replaced |
| ConfigMerge.MergeIdempotent | etc/expand.js:17-18 | merging the same runtime configuration twice equals merging it once |
| Pipeline.CountMessage | cpanel/cam.js:51 | the hub's count message decodes to the one-key object `{client_count: n}` |
| Pipeline.CountDrivesActivation | cpanel/cam.js:49-53 | a count message from the hub sets the daemon's flag iff the count is non-zero, negative counts included |
| Pipeline.NotificationBecomesUrl | cpanel/cam.js:76-82 | a daemon's capture notification becomes exactly one viewer URL: the prefix followed by the capture's file name |
| Pipeline.InstalledHubUrl | cpanel/cpanel.js:53 | with the hub installed under `/cam/img/`, a capture notification becomes the URL `/cam/img/` followed by the capture's file name |

## Left out

- Concurrency and the event loop. asyncio scheduling, `asyncio.wait` and `Event.wait` blocking are replaced by explicit event sequences. The sleeps become returned delays.
- Un-cancelled tasks. `asyncio.wait` leaves the still-pending task running after a connection attempt ends (camdaemon.py:116-119). The model instead starts each connection from a fresh capture task and drops the old one.
- CamDaemon.StepCaptureLoop: with the real camera the model keeps capturing. In the code, `RealCamera.capture` is a coroutine that is never awaited, so no file is written. `RealCamera.wait` returns `None`, so `yield from camera.wait()` (camdaemon.py:73) raises `TypeError` after the first notification. That ends the attempt as an unclassified failure.
- Camera hardware, file copying and the fake camera's 10-second pacing. `shutil.copy` is represented only by the name of the canned image copied.
- Camera selection at line 60 of camdaemon.py: the result is never used, and constructing either camera has no effect.
- The config file loading, JSON encoding and decoding, and logging. Messages arrive already decoded. Malformed JSON, and a missing `camdir` or `cpanel_cammgr_url` key, are not modelled.
- Network transports: websockets, socket.io, `ws.Server` and express. The hub's `setInterval` keep-alive is one `KeepAlive` event, with no clock.
- `cpanel/cpanel.js` as a whole. It is server bootstrap and route wiring; only the `/cam/img/` prefix it passes to the hub is kept.
- The web client's DOM, Blockly, layout, scrolling, stop button and `image` handler.
- Numbers are integers. Floats, NaN and JSON arrays are not modelled, and a JSON object is represented only by its key count.
- `Values.JsToString` renders every object as `[object Object]`.
- ConfigMerge.Merge: keys that name inherited `Object.prototype` members, such as `constructor` or `__proto__`, are not given JavaScript's special behaviour.
- The stdin reading and Handlebars expansion in `etc/expand.js`.
- The camera is not reference-counted, `usecamera` has no `"if-enabled"` mode, and the daemon has no local request parser; the model has none of these either.

=== FILE: cam_hub.dfy ===
/**
 The coordinator's camera hub: a count of connected viewers, the ordered
 list of camera-daemon ("manager") connections, and the messages the hub
 sends in response to each event. Sockets are identified by number and
 messages arrive already decoded; what the hub sends is returned as a list
 of emissions instead of being written to a network.
 */
module CamHub {
  import opened Values

  type SocketId = nat

  /** The HTTP upgrade request of a manager connection. */
  datatype UpgradeRequest = UpgradeRequest(remoteAddress: string, headers: map<string, string>)

  datatype Hub = Hub(camImgUrl: string, clientCount: int, managers: seq<SocketId>)

  datatype Emission =
    | SendCount(to: SocketId, count: int)    // `{client_count: count}` to one manager
    | Terminate(socket: SocketId)            // a refused manager connection is dropped
    | ClientImage(url: string)               // `image {url}` to the viewers

  /** The URL prefix the coordinator installs the hub with. */
  const DefaultCamImgUrl: string := "/cam/img/"

  const Localhost: string := "127.0.0.1"

  function NewHub(camImgUrl: string): (h: Hub)
    ensures h.camImgUrl == camImgUrl && h.clientCount == 0 && h.managers == []
  {
    Hub(camImgUrl, 0, [])
  }

  /** The current count, to every manager, in list order. */
  function BroadcastTo(managers: seq<SocketId>, count: int): (out: seq<Emission>)
    ensures |out| == |managers|
    ensures forall i :: 0 <= i < |out| ==> out[i] == SendCount(managers[i], count)
  {
    if |managers| == 0 then []
    else [SendCount(managers[0], count)] + BroadcastTo(managers[1..], count)
  }

  function BroadcastClientCount(h: Hub): (out: seq<Emission>)
    ensures |out| == |h.managers|
    ensures forall i :: 0 <= i < |out| ==> out[i] == SendCount(h.managers[i], h.clientCount)
  {
    BroadcastTo(h.managers, h.clientCount)
  }

  /** Only a connection from the local host, not forwarded from elsewhere by
      a proxy, may act as a manager. */
  predicate ManagerIsAcceptable(req: UpgradeRequest) {
    && req.remoteAddress == Localhost
    && ("x-forwarded-for" !in req.headers || req.headers["x-forwarded-for"] == Localhost)
  }

  lemma ManagerAcceptance(req: UpgradeRequest)
    ensures req.remoteAddress != Localhost ==> !ManagerIsAcceptable(req)
    ensures "x-forwarded-for" in req.headers && req.headers["x-forwarded-for"] != Localhost
      ==> !ManagerIsAcceptable(req)
    ensures req.remoteAddress == Localhost && "x-forwarded-for" !in req.headers
      ==> ManagerIsAcceptable(req)
    ensures (req.remoteAddress == Localhost && "x-forwarded-for" in req.headers
             && req.headers["x-forwarded-for"] == Localhost) ==> ManagerIsAcceptable(req)
  {
  }

  datatype Reaction = Reaction(hub: Hub, out: seq<Emission>)

  /** A manager connects: a refused one is terminated and never listed; an
      accepted one is appended and the count is broadcast, so that it too
      receives the current count, last. */
  function OnManagerConnect(h: Hub, ws: SocketId, req: UpgradeRequest): (r: Reaction)
    ensures r.hub.clientCount == h.clientCount && r.hub.camImgUrl == h.camImgUrl
    ensures !ManagerIsAcceptable(req) ==> r.hub == h && r.out == [Terminate(ws)]
    ensures ManagerIsAcceptable(req) ==>
      && r.hub.managers == h.managers + [ws]
      && |r.out| == |h.managers| + 1
      && r.out[|h.managers|] == SendCount(ws, h.clientCount)
      && forall i :: 0 <= i < |h.managers| ==> r.out[i] == SendCount(h.managers[i], h.clientCount)
  {
    if !ManagerIsAcceptable(req) then Reaction(h, [Terminate(ws)])
    else
      var h' := h.(managers := h.managers + [ws]);
      Reaction(h', BroadcastClientCount(h'))
  }

  /** A manager reports a new image: one emission to the viewers with the
      file name appended to the image URL prefix; other messages yield none.
      The hub itself never changes. */
  function OnManagerMessage(h: Hub, data: map<string, Value>): (out: seq<Emission>)
    ensures "image" !in data ==> out == []
    ensures "image" in data ==> |out| == 1 && out[0].ClientImage?
    ensures "image" in data && data["image"].Str? ==>
      out == [ClientImage(h.camImgUrl + data["image"].s)]
    ensures "image" in data ==> out == [ClientImage(h.camImgUrl + JsConcatText(data["image"]))]
  {
    if "image" in data then [ClientImage(h.camImgUrl + JsConcatText(data["image"]))] else []
  }

  /** Index of the first occurrence of `x`, or -1. */
  function IndexOf(s: seq<SocketId>, x: SocketId): (i: int)
    ensures -1 <= i < |s|
    ensures i == -1 <==> x !in s
    ensures i >= 0 ==> s[i] == x && x !in s[..i]
  {
    if |s| == 0 then -1
    else if s[0] == x then 0
    else
      var j := IndexOf(s[1..], x);
      if j == -1 then -1
      else
        assert s[..j + 1] == [s[0]] + s[1..][..j];
        j + 1
  }

  /** Removes the first occurrence of `ws`, if any; everything else keeps
      its relative order. */
  function RemoveManager(managers: seq<SocketId>, ws: SocketId): (r: seq<SocketId>)
    ensures ws !in managers ==> r == managers
    ensures ws in managers ==>
      && |r| == |managers| - 1
      && var i := IndexOf(managers, ws);
         r == managers[..i] + managers[i + 1..]
    ensures multiset(r) == multiset(managers) - multiset{ws}
  {
    var i := IndexOf(managers, ws);
    if i == -1 then managers
    else
      assert managers == managers[..i] + [ws] + managers[i + 1..];
      managers[..i] + managers[i + 1..]
  }

  /** An independent, element-by-element definition of the same removal. */
  function RemoveFirst(s: seq<SocketId>, x: SocketId): (r: seq<SocketId>) {
    if |s| == 0 then []
    else if s[0] == x then s[1..]
    else [s[0]] + RemoveFirst(s[1..], x)
  }

  lemma {:induction false} RemoveManagerIsRemoveFirst(managers: seq<SocketId>, ws: SocketId)
    ensures RemoveManager(managers, ws) == RemoveFirst(managers, ws)
    decreases |managers|
  {
    if |managers| > 0 && managers[0] != ws {
      RemoveManagerIsRemoveFirst(managers[1..], ws);
      RemoveManagerCons(managers, ws);
    }
  }

  /** Removal past a head that is not the removed socket keeps the head. */
  lemma RemoveManagerCons(managers: seq<SocketId>, ws: SocketId)
    requires |managers| > 0 && managers[0] != ws
    ensures RemoveManager(managers, ws) == [managers[0]] + RemoveManager(managers[1..], ws)
  {
    if ws in managers {
      RemoveManagerConsPresent(managers, ws);
    } else {
      assert managers == [managers[0]] + managers[1..];
    }
  }

  lemma RemoveManagerConsPresent(managers: seq<SocketId>, ws: SocketId)
    requires |managers| > 0 && managers[0] != ws && ws in managers
    ensures RemoveManager(managers, ws) == [managers[0]] + RemoveManager(managers[1..], ws)
  {
    var j := IndexOf(managers[1..], ws);
    IndexOfCons(managers, ws);
    SpliceCons(managers, j);
  }

  lemma IndexOfCons(s: seq<SocketId>, x: SocketId)
    requires |s| > 0 && s[0] != x && x in s
    ensures x in s[1..] && IndexOf(s, x) == IndexOf(s[1..], x) + 1
  {
  }

  /** Cutting one element out of a sequence commutes with dropping its head. */
  lemma SpliceCons(s: seq<SocketId>, j: nat)
    requires j + 1 < |s|
    ensures s[..j + 1] + s[j + 2..] == [s[0]] + (s[1..][..j] + s[1..][j + 1..])
  {
    assert s[..j + 1] == [s[0]] + s[1..][..j];
    assert s[j + 2..] == s[1..][j + 1..];
  }

  /** With each manager listed once, removal takes it out entirely and
      removing it again changes nothing. */
  lemma RemoveDistinctManager(managers: seq<SocketId>, ws: SocketId)
    requires forall i, j :: 0 <= i < j < |managers| ==> managers[i] != managers[j]
    ensures ws !in RemoveManager(managers, ws)
    ensures RemoveManager(RemoveManager(managers, ws), ws) == RemoveManager(managers, ws)
  {
    if ws in managers {
      var i := IndexOf(managers, ws);
      assert forall k :: i < k < |managers| ==> managers[k] != ws;
      assert ws !in managers[i + 1..];
    }
  }

  /** A manager's error or close: it leaves the list; no emission. */
  function OnManagerGone(h: Hub, ws: SocketId): (r: Hub)
    ensures r.clientCount == h.clientCount && r.camImgUrl == h.camImgUrl
    ensures r.managers == RemoveManager(h.managers, ws)
  {
    h.(managers := RemoveManager(h.managers, ws))
  }

  /** A viewer connects (+1) or errs or disconnects (-1, with no lower
      bound); the new count goes to every manager. */
  function OnClientChange(h: Hub, delta: int): (r: Reaction)
    requires delta == 1 || delta == -1
    ensures r.hub.managers == h.managers && r.hub.camImgUrl == h.camImgUrl
    ensures r.hub.clientCount == h.clientCount + delta
    ensures |r.out| == |h.managers|
    ensures forall i :: 0 <= i < |r.out| ==> r.out[i] == SendCount(h.managers[i], h.clientCount + delta)
  {
    var h' := h.(clientCount := h.clientCount + delta);
    Reaction(h', BroadcastClientCount(h'))
  }

  /** What the hub reacts to. Message, error and close handlers are
      installed only on accepted manager sockets, so the manager events
      other than `ManagerConnect` come only from sockets that were accepted;
      traces in which a refused socket sends a message are not ones the
      coordinator can see. */
  datatype HubEvent =
    | ManagerConnect(ws: SocketId, req: UpgradeRequest)
    | ManagerMessage(ws: SocketId, data: map<string, Value>)
    | ManagerError(ws: SocketId)
    | ManagerClose(ws: SocketId)
    | ClientConnect
    | ClientError
    | ClientClose
    | KeepAlive                         // the periodic timer

  predicate IsClientEvent(e: HubEvent) {
    e.ClientConnect? || e.ClientError? || e.ClientClose?
  }

  function Handle(h: Hub, e: HubEvent): (r: Reaction)
    ensures r.hub.camImgUrl == h.camImgUrl
    ensures IsClientEvent(e) ==> r.hub.managers == h.managers
    ensures !IsClientEvent(e) ==> r.hub.clientCount == h.clientCount
    ensures IsClientEvent(e) ==> r.out == BroadcastClientCount(r.hub)
    ensures e.KeepAlive? ==> r.hub == h && r.out == BroadcastClientCount(h)
  {
    match e
    case ManagerConnect(ws, req) => OnManagerConnect(h, ws, req)
    case ManagerMessage(_, data) => Reaction(h, OnManagerMessage(h, data))
    case ManagerError(ws) => Reaction(OnManagerGone(h, ws), [])
    case ManagerClose(ws) => Reaction(OnManagerGone(h, ws), [])
    case ClientConnect => OnClientChange(h, 1)
    case ClientError => OnClientChange(h, -1)
    case ClientClose => OnClientChange(h, -1)
    case KeepAlive => Reaction(h, BroadcastClientCount(h))
  }

  function Run(h: Hub, events: seq<HubEvent>): (r: Reaction)
    decreases |events|
  {
    if |events| == 0 then Reaction(h, [])
    else
      var first := Handle(h, events[0]);
      var rest := Run(first.hub, events[1..]);
      Reaction(rest.hub, first.out + rest.out)
  }

  /** Kinds of event counted over a trace. */
  datatype Kind = Arrival | Departure | ImageReport

  predicate IsKind(e: HubEvent, kind: Kind) {
    match kind
    case Arrival => e.ClientConnect?
    case Departure => e.ClientError? || e.ClientClose?
    case ImageReport => e.ManagerMessage? && "image" in e.data
  }

  /** Number of events of one kind. */
  function Count(events: seq<HubEvent>, kind: Kind): (n: nat)
    decreases |events|
  {
    if |events| == 0 then 0
    else (if IsKind(events[0], kind) then 1 else 0) + Count(events[1..], kind)
  }

  /** The count is the number of viewer connects less the number of viewer
      errors and disconnects, whatever the managers do. */
  lemma {:induction false} ClientCountTracksEvents(h: Hub, events: seq<HubEvent>)
    ensures Run(h, events).hub.clientCount
      == h.clientCount + Count(events, Arrival) - Count(events, Departure)
    decreases |events|
  {
    if |events| > 0 {
      ClientCountTracksEvents(Handle(h, events[0]).hub, events[1..]);
    }
  }

  /** Viewer events never touch the manager list. */
  lemma {:induction false} ClientEventsKeepManagers(h: Hub, events: seq<HubEvent>)
    requires forall i :: 0 <= i < |events| ==> IsClientEvent(events[i])
    ensures Run(h, events).hub.managers == h.managers
    decreases |events|
  {
    if |events| > 0 {
      ClientEventsKeepManagers(Handle(h, events[0]).hub, events[1..]);
    }
  }

  /** Some event of the trace connected socket `s` with an acceptable
      upgrade request. */
  predicate ConnectedAcceptably(events: seq<HubEvent>, s: SocketId) {
    exists i :: 0 <= i < |events| && events[i].ManagerConnect? && events[i].ws == s
      && ManagerIsAcceptable(events[i].req)
  }

  /** Removal never adds a socket. */
  lemma RemovedFrom(managers: seq<SocketId>, ws: SocketId, s: SocketId)
    requires s in RemoveManager(managers, ws)
    ensures s in managers
  {
    var r := RemoveManager(managers, ws);
    assert s in multiset(r);
  }

  /** One event lists no socket besides the old ones and the one it
      accepts. */
  lemma HandleManagers(h: Hub, e: HubEvent, s: SocketId)
    requires s in Handle(h, e).hub.managers
    ensures s in h.managers || (e.ManagerConnect? && e.ws == s && ManagerIsAcceptable(e.req))
  {
    match e
    case ManagerError(ws) => RemovedFrom(h.managers, ws, s);
    case ManagerClose(ws) => RemovedFrom(h.managers, ws, s);
    case _ =>
  }

  /** A refused manager is never listed: every manager listed after a trace
      was listed before it or was accepted by one of its connects. */
  lemma {:induction false} ManagersWereAccepted(h: Hub, events: seq<HubEvent>, s: SocketId)
    requires s in Run(h, events).hub.managers
    ensures s in h.managers || ConnectedAcceptably(events, s)
    decreases |events|
  {
    if |events| > 0 {
      var first := Handle(h, events[0]);
      ManagersWereAccepted(first.hub, events[1..], s);
      if s in first.hub.managers {
        HandleManagers(h, events[0], s);
        if s !in h.managers {
          assert events[0].ManagerConnect? && events[0].ws == s && ManagerIsAcceptable(events[0].req);
        }
      } else {
        var i :| 0 <= i < |events[1..]| && events[1..][i].ManagerConnect? && events[1..][i].ws == s
          && ManagerIsAcceptable(events[1..][i].req);
        assert events[i + 1] == events[1..][i];
      }
    }
  }

  /** There are as many image emissions to the viewers as manager messages
      with an `image` key. */
  lemma {:induction false} ImagesComeFromManagers(h: Hub, events: seq<HubEvent>)
    ensures Count(events, ImageReport) == |ImagesOf(Run(h, events).out)|
    decreases |events|
  {
    if |events| > 0 {
      var first := Handle(h, events[0]);
      ImagesComeFromManagers(first.hub, events[1..]);
      ImagesOfAppend(first.out, Run(first.hub, events[1..]).out);
      match events[0]
      case ManagerConnect(ws, req) =>
        if ManagerIsAcceptable(req) {
          NoImagesInBroadcast(first.hub.managers, first.hub.clientCount);
        }
      case ManagerMessage(_, data) =>
      case ManagerError(_) =>
      case ManagerClose(_) =>
      case ClientConnect => NoImagesInBroadcast(first.hub.managers, first.hub.clientCount);
      case ClientError => NoImagesInBroadcast(first.hub.managers, first.hub.clientCount);
      case ClientClose => NoImagesInBroadcast(first.hub.managers, first.hub.clientCount);
      case KeepAlive => NoImagesInBroadcast(first.hub.managers, first.hub.clientCount);
    }
  }

  /** The image URLs among the emissions, in order. */
  function ImagesOf(out: seq<Emission>): (urls: seq<string>)
    decreases |out|
  {
    if |out| == 0 then []
    else (if out[0].ClientImage? then [out[0].url] else []) + ImagesOf(out[1..])
  }

  lemma {:induction false} ImagesOfAppend(a: seq<Emission>, b: seq<Emission>)
    ensures ImagesOf(a + b) == ImagesOf(a) + ImagesOf(b)
    decreases |a|
  {
    if |a| > 0 {
      assert (a + b)[0] == a[0];
      assert (a + b)[1..] == a[1..] + b;
      ImagesOfAppend(a[1..], b);
    } else {
      assert a + b == b;
    }
  }

  lemma {:induction false} NoImagesInBroadcast(managers: seq<SocketId>, count: int)
    ensures ImagesOf(BroadcastTo(managers, count)) == []
    decreases |managers|
  {
    if |managers| > 0 {
      NoImagesInBroadcast(managers[1..], count);
      assert BroadcastTo(managers, count)[1..] == BroadcastTo(managers[1..], count);
    }
  }
}

=== FILE: camdaemon.dfy ===
/**
 The camera daemon's decision logic, without the event loop: the fake
 camera's cyclic image counter, the capture loop's sequence counter and
 file names, the activation flag driven by `client_count` messages, the
 capture loop as a step function over that flag, camera selection, the
 output-directory rule and the reconnect-failure classifier.

 Concurrency is replaced by an explicit event sequence: a `Received`
 event is the message task handling one decoded message, a `CameraTurn`
 event is the capture task running from one suspension point to the next.
 */
module CamDaemon {
  import opened Values

  /* ---------------- Counters modulo a bound ---------------- */

  /** The two bounds the daemon counts modulo: canned images and
      sequence numbers. */
  predicate CounterBound(m: int) {
    m == FixtureCount || m == SerialModulus
  }

  lemma {:induction false} ModAddMultiple(x: int, q: nat, m: int)
    requires CounterBound(m) && x >= 0
    ensures (q * m + x) % m == x % m
    decreases q
  {
    if q > 0 {
      ModAddMultiple(x, q - 1, m);
      assert q * m + x == (q - 1) * m + x + m;
    }
  }

  /** Reducing a counter after each step or only at the end agrees. */
  lemma ShiftMod(a: int, k: nat, m: int)
    requires 0 <= a && CounterBound(m)
    ensures ((a + 1) % m + k) % m == (a + 1 + k) % m
  {
    var q := (a + 1) / m;
    assert a + 1 + k == q * m + ((a + 1) % m + k);
    ModAddMultiple((a + 1) % m + k, q, m);
  }

  /* ---------------- The fake camera ---------------- */

  /** Number of canned images the fake camera cycles through. */
  const FixtureCount: int := 10

  datatype FakeCamera = FakeCamera(serial: int)

  predicate ValidFake(c: FakeCamera) {
    1 <= c.serial <= FixtureCount
  }

  /** Entering the fake camera's scope selects the first canned image. */
  function EnterFake(): (c: FakeCamera)
    ensures ValidFake(c) && c.serial == 1
  {
    FakeCamera(1)
  }

  /** The file of the canned image the fake camera copies for a given
      serial: `motion`, two digits, `.jpg`. */
  function FixtureName(serial: int): (name: string)
    ensures ValidFake(FakeCamera(serial)) ==>
      && |name| == 12
      && name[..6] == "motion"
      && name[8..] == ".jpg"
      && AllDigits(name[6..8])
      && DecimalValue(name[6..8]) == serial
  {
    var name := "motion" + ZeroPad2(serial) + ".jpg";
    assert ValidFake(FakeCamera(serial)) ==> name[6..8] == ZeroPad2(serial);
    name
  }

  /** A fake capture: the camera afterwards, and the number of the canned
      image copied (its file is `FixtureName(fixture)`). */
  datatype FakeCapture = FakeCapture(camera: FakeCamera, fixture: int)

  /** One fake capture: copies the current canned image, then moves on to
      the next one, wrapping from the last back to the first. */
  function CaptureFake(c: FakeCamera): (r: FakeCapture)
    ensures r.fixture == c.serial
    ensures ValidFake(c) ==> ValidFake(r.camera)
    ensures ValidFake(c) && c.serial < FixtureCount ==> r.camera.serial == c.serial + 1
    ensures c.serial == FixtureCount ==> r.camera.serial == 1
  {
    FakeCapture(FakeCamera((c.serial % 10) + 1), c.serial)
  }

  /** The fake camera after `k` captures. */
  function CaptureFakeTimes(c: FakeCamera, k: nat): (r: FakeCamera)
    decreases k
  {
    if k == 0 then c else CaptureFakeTimes(CaptureFake(c).camera, k - 1)
  }

  lemma {:induction false} CaptureFakeTimesSerial(c: FakeCamera, k: nat)
    requires ValidFake(c)
    ensures ValidFake(CaptureFakeTimes(c, k))
    ensures CaptureFakeTimes(c, k).serial == (c.serial - 1 + k) % FixtureCount + 1
    decreases k
  {
    if k > 0 {
      var next := CaptureFake(c).camera;
      CaptureFakeTimesSerial(next, k - 1);
      assert next.serial - 1 == (c.serial - 1 + 1) % FixtureCount;
      ShiftMod(c.serial - 1, k - 1, FixtureCount);
    }
  }

  /** The fake camera comes back to where it started exactly after a
      multiple of ten captures. */
  lemma FakeCycle(c: FakeCamera, k: nat)
    requires ValidFake(c)
    ensures CaptureFakeTimes(c, k) == c <==> k % FixtureCount == 0
  {
    CaptureFakeTimesSerial(c, k);
    CycleMod(c.serial - 1, k);
  }

  lemma CycleMod(x: int, k: nat)
    requires 0 <= x < FixtureCount
    ensures (x + k) % FixtureCount == x <==> k % FixtureCount == 0
  {
    var r := k % FixtureCount;
    assert x + k == (k / FixtureCount) * FixtureCount + (x + r);
    ModAddMultiple(x + r, k / FixtureCount, FixtureCount);
  }

  /* ---------------- Sequence numbers and file names ---------------- */

  /** Sequence numbers run through 0 .. SerialModulus - 1. */
  const SerialModulus: int := 100

  /** The name a capture is written under: `image`, two digits, `.jpg`. */
  function CaptureFilename(serial: int): (name: string)
    ensures 0 <= serial < SerialModulus ==>
      && |name| == 11
      && name[..5] == "image"
      && name[7..] == ".jpg"
      && AllDigits(name[5..7])
      && DecimalValue(name[5..7]) == serial
  {
    var name := "image" + ZeroPad2(serial) + ".jpg";
    assert 0 <= serial < SerialModulus ==> name[5..7] == ZeroPad2(serial);
    name
  }

  /** Different sequence numbers give different file names. */
  lemma CaptureFilenameInjective(a: int, b: int)
    requires 0 <= a < SerialModulus && 0 <= b < SerialModulus
    ensures CaptureFilename(a) == CaptureFilename(b) <==> a == b
  {
    if CaptureFilename(a) == CaptureFilename(b) {
      assert CaptureFilename(a)[5..7] == CaptureFilename(b)[5..7];
    }
  }

  /** The sequence number after a capture. */
  function NextSerial(serial: int): (r: int)
    ensures 0 <= r < SerialModulus
    ensures 0 <= serial < SerialModulus - 1 ==> r == serial + 1
    ensures serial == SerialModulus - 1 ==> r == 0
  {
    (serial + 1) % 100
  }

  /* ---------------- The activation flag ---------------- */

  /** A decoded message from the coordinator. */
  type Message = map<string, Value>

  /** The message task's reaction to one message: a `client_count` of zero
      clears the flag, any other count sets it, other messages are ignored. */
  function HandleServerMessage(flag: bool, msg: Message): (r: bool)
    ensures "client_count" !in msg ==> r == flag
    ensures "client_count" in msg ==> (r <==> !PyEqualsZero(msg["client_count"]))
  {
    if "client_count" in msg then !PyEqualsZero(msg["client_count"]) else flag
  }

  /** The flag after handling `msgs` in order. */
  function ApplyMessages(flag: bool, msgs: seq<Message>): (r: bool)
    decreases |msgs|
  {
    if |msgs| == 0 then flag else ApplyMessages(HandleServerMessage(flag, msgs[0]), msgs[1..])
  }

  /** The count carried by the most recent message that has one. */
  function LatestCount(msgs: seq<Message>): (r: Option<Value>) {
    if |msgs| == 0 then None
    else if "client_count" in msgs[|msgs| - 1] then Some(msgs[|msgs| - 1]["client_count"])
    else LatestCount(msgs[..|msgs| - 1])
  }

  lemma {:induction false} ApplyMessagesSnoc(flag: bool, msgs: seq<Message>, m: Message)
    ensures ApplyMessages(flag, msgs + [m]) == HandleServerMessage(ApplyMessages(flag, msgs), m)
    decreases |msgs|
  {
    if |msgs| > 0 {
      assert (msgs + [m])[1..] == msgs[1..] + [m];
      ApplyMessagesSnoc(HandleServerMessage(flag, msgs[0]), msgs[1..], m);
    }
  }

  /** The flag reflects the latest message carrying a count, whatever came
      before it; without such a message it keeps its earlier value. */
  lemma {:induction false} FlagFollowsLatestCount(flag: bool, msgs: seq<Message>)
    ensures LatestCount(msgs).None? ==> ApplyMessages(flag, msgs) == flag
    ensures LatestCount(msgs).Some? ==>
      (ApplyMessages(flag, msgs) <==> !PyEqualsZero(LatestCount(msgs).value))
    decreases |msgs|
  {
    if |msgs| > 0 {
      var init := msgs[..|msgs| - 1];
      assert msgs == init + [msgs[|msgs| - 1]];
      ApplyMessagesSnoc(flag, init, msgs[|msgs| - 1]);
      FlagFollowsLatestCount(flag, init);
    }
  }

  /** From the initial, cleared flag: the flag is set exactly when the most
      recent message with a `client_count` carried a non-zero count. */
  lemma ActivationFromStart(msgs: seq<Message>)
    ensures ApplyMessages(false, msgs) <==>
      LatestCount(msgs).Some? && !PyEqualsZero(LatestCount(msgs).value)
  {
    FlagFollowsLatestCount(false, msgs);
  }

  /* ---------------- Camera selection ---------------- */

  /** The exceptions that can end a connection attempt. */
  datatype Failure =
    | ConnectionRefused
    | InvalidHandshake
    | ConnectionClosed(code: int, reason: string)
    | Unclassified(name: string)

  datatype CameraChoice = UseRealCamera | UseFakeCamera

  /** `getcam`: the real camera when `usecamera` is truthy in Python's sense,
      the fake one otherwise; a missing key raises `KeyError`. */
  function GetCam(config: map<string, Value>): (r: Result<CameraChoice, Failure>)
    ensures "usecamera" !in config ==> r == Err(Unclassified("KeyError"))
    ensures "usecamera" in config ==>
      r.Ok? && (r.value == UseRealCamera <==> PyTruthy(config["usecamera"]))
  {
    if "usecamera" !in config then Err(Unclassified("KeyError"))
    else if PyTruthy(config["usecamera"]) then Ok(UseRealCamera)
    else Ok(UseFakeCamera)
  }

  /** An entered camera scope. The real camera's capture is hardware and
      carries no state the model can see. */
  datatype Camera = RealCamera | Fake(fake: FakeCamera)

  function EnterCamera(choice: CameraChoice): (c: Camera)
    ensures c.Fake? <==> choice == UseFakeCamera
    ensures c.Fake? ==> c.fake.serial == 1
  {
    match choice
    case UseRealCamera => RealCamera
    case UseFakeCamera => Fake(EnterFake())
  }

  /* ---------------- The capture loop ---------------- */

  /** Standby: waiting for the flag. Active: inside an entered camera scope. */
  datatype Phase = Standby | Active(camera: Camera)

  datatype CaptureLoop = CaptureLoop(phase: Phase, serial: int)

  predicate ValidLoop(l: CaptureLoop) {
    && 0 <= l.serial < SerialModulus
    && (l.phase.Active? && l.phase.camera.Fake? ==> ValidFake(l.phase.camera.fake))
  }

  /** A fresh invocation of the capture task. */
  function StartCaptureLoop(): (l: CaptureLoop)
    ensures ValidLoop(l) && l.phase.Standby? && l.serial == 0
  {
    CaptureLoop(Standby, 0)
  }

  /** One capture: the sequence number it is written under (the file is
      `CaptureFilename(serial)`), and the number of the canned image it was
      copied from when the camera is the fake one. */
  datatype Capture = Capture(serial: int, fixture: Option<int>)

  /** The notification sent to the coordinator after a capture. */
  function Notification(c: Capture): (m: Message)
    ensures m.Keys == {"image"} && m["image"] == Str(CaptureFilename(c.serial))
  {
    map["image" := Str(CaptureFilename(c.serial))]
  }

  datatype LoopStep = LoopStep(loop: CaptureLoop, captured: Option<Capture>)

  /** The capture task run up to its next suspension point, given the flag
      it sees at the loop head. A set flag means exactly one capture
      (entering the camera first when in standby) and one notification; a
      cleared flag means leaving the camera scope, or staying, in standby. */
  function StepCaptureLoop(l: CaptureLoop, flag: bool, choice: CameraChoice): (r: LoopStep)
    ensures ValidLoop(l) ==> ValidLoop(r.loop)
    ensures r.captured.Some? <==> flag
    ensures !flag ==> r.loop == CaptureLoop(Standby, l.serial)
    ensures flag ==>
      && r.loop.phase.Active?
      && r.loop.serial == NextSerial(l.serial)
      && r.captured.value.serial == l.serial
      && (r.captured.value.fixture.Some? <==> r.loop.phase.camera.Fake?)
    ensures flag && l.phase.Standby? ==>
      (r.captured.value.fixture.Some? <==> choice == UseFakeCamera)
    ensures flag && l.phase.Standby? && choice == UseFakeCamera ==>
      r.captured.value.fixture == Some(1)
    ensures flag && l.phase.Active? ==>
      (r.loop.phase.camera.Fake? <==> l.phase.camera.Fake?)
    ensures flag && l.phase.Active? && l.phase.camera.Fake? ==>
      && r.captured.value.fixture == Some(l.phase.camera.fake.serial)
      && r.loop.phase.camera.fake == CaptureFake(l.phase.camera.fake).camera
  {
    if !flag then LoopStep(CaptureLoop(Standby, l.serial), None)
    else
      var camera := if l.phase.Active? then l.phase.camera else EnterCamera(choice);
      match camera
      case RealCamera =>
        LoopStep(CaptureLoop(Active(RealCamera), NextSerial(l.serial)), Some(Capture(l.serial, None)))
      case Fake(f) =>
        var shot := CaptureFake(f);
        LoopStep(CaptureLoop(Active(Fake(shot.camera)), NextSerial(l.serial)),
                 Some(Capture(l.serial, Some(shot.fixture))))
  }

  /** The configuration decides, through the first capture of an
      activation, whether canned images are copied: exactly when
      `usecamera` is falsy in Python's sense. */
  lemma SelectionDecidesFixture(config: map<string, Value>, l: CaptureLoop)
    requires "usecamera" in config && l.phase.Standby?
    ensures GetCam(config).Ok?
    ensures StepCaptureLoop(l, true, GetCam(config).value).captured.value.fixture.Some?
      <==> !PyTruthy(config["usecamera"])
  {
  }

  /* ---------------- One connection ---------------- */

  datatype Event = Received(msg: Message) | CameraTurn

  /** The state shared by the two tasks of a connection. */
  datatype Session = Session(flag: bool, loop: CaptureLoop)

  datatype SessionRun = SessionRun(session: Session, captures: seq<Capture>)

  function RunSession(s: Session, events: seq<Event>, choice: CameraChoice): (r: SessionRun)
    decreases |events|
  {
    if |events| == 0 then SessionRun(s, [])
    else
      match events[0]
      case Received(m) =>
        RunSession(Session(HandleServerMessage(s.flag, m), s.loop), events[1..], choice)
      case CameraTurn =>
        var step := StepCaptureLoop(s.loop, s.flag, choice);
        var rest := RunSession(Session(s.flag, step.loop), events[1..], choice);
        SessionRun(rest.session,
                   (if step.captured.Some? then [step.captured.value] else []) + rest.captures)
  }

  /** The messages among the events, in order. */
  function MessagesOf(events: seq<Event>): (msgs: seq<Message>) {
    if |events| == 0 then []
    else if events[0].Received? then [events[0].msg] + MessagesOf(events[1..])
    else MessagesOf(events[1..])
  }

  /** Number of camera turns that find the flag set, the flag following the
      messages received before each turn. */
  function ActiveTurns(flag: bool, events: seq<Event>): (n: nat)
    decreases |events|
  {
    if |events| == 0 then 0
    else if events[0].Received? then ActiveTurns(HandleServerMessage(flag, events[0].msg), events[1..])
    else (if flag then 1 else 0) + ActiveTurns(flag, events[1..])
  }

  /** Over any interleaving the flag ends as the messages alone decide. */
  lemma {:induction false} SessionFlag(s: Session, events: seq<Event>, choice: CameraChoice)
    ensures RunSession(s, events, choice).session.flag == ApplyMessages(s.flag, MessagesOf(events))
    decreases |events|
  {
    if |events| > 0 {
      match events[0]
      case Received(m) =>
        SessionFlag(Session(HandleServerMessage(s.flag, m), s.loop), events[1..], choice);
      case CameraTurn =>
        SessionFlag(Session(s.flag, StepCaptureLoop(s.loop, s.flag, choice).loop), events[1..], choice);
    }
  }

  /** There is exactly one capture per camera turn that finds the flag set,
      and the captures are named by consecutive sequence numbers (modulo 100)
      starting from the loop's current one: standby never resets the number. */
  lemma {:induction false} SessionCaptures(s: Session, events: seq<Event>, choice: CameraChoice)
    requires ValidLoop(s.loop)
    ensures |RunSession(s, events, choice).captures| == ActiveTurns(s.flag, events)
    ensures ValidLoop(RunSession(s, events, choice).session.loop)
    ensures RunSession(s, events, choice).session.loop.serial
      == (s.loop.serial + |RunSession(s, events, choice).captures|) % SerialModulus
    ensures NamedFrom(RunSession(s, events, choice).captures, s.loop.serial)
    decreases |events|
  {
    if |events| > 0 {
      match events[0]
      case Received(m) =>
        SessionCaptures(Session(HandleServerMessage(s.flag, m), s.loop), events[1..], choice);
      case CameraTurn =>
        CameraTurnCaptures(s, events, choice);
    }
  }

  /** Captures named by consecutive sequence numbers from `from`. */
  predicate NamedFrom(captures: seq<Capture>, from: int) {
    forall k :: 0 <= k < |captures| ==>
      captures[k].serial == (from + k) % SerialModulus
  }

  lemma ConsNamedFrom(c: Capture, rest: seq<Capture>, a: int)
    requires 0 <= a < SerialModulus
    requires c.serial == a && NamedFrom(rest, NextSerial(a))
    ensures NamedFrom([c] + rest, a)
  {
    forall k | 0 <= k < |[c] + rest|
      ensures ([c] + rest)[k].serial == (a + k) % SerialModulus
    {
      if k > 0 {
        assert ([c] + rest)[k] == rest[k - 1];
        ShiftMod(a, k - 1, SerialModulus);
      }
    }
  }

  /** One camera turn, unfolded. */
  lemma CameraTurnUnfold(s: Session, events: seq<Event>, choice: CameraChoice)
    requires |events| > 0 && events[0] == CameraTurn
    ensures var step := StepCaptureLoop(s.loop, s.flag, choice);
      var rest := RunSession(Session(s.flag, step.loop), events[1..], choice);
      RunSession(s, events, choice)
        == SessionRun(rest.session, (if s.flag then [step.captured.value] else []) + rest.captures)
  {
  }

  /** The camera-turn case of SessionCaptures. */
  lemma {:induction false} CameraTurnCaptures(s: Session, events: seq<Event>, choice: CameraChoice)
    requires ValidLoop(s.loop) && |events| > 0 && events[0] == CameraTurn
    ensures |RunSession(s, events, choice).captures| == ActiveTurns(s.flag, events)
    ensures ValidLoop(RunSession(s, events, choice).session.loop)
    ensures RunSession(s, events, choice).session.loop.serial
      == (s.loop.serial + |RunSession(s, events, choice).captures|) % SerialModulus
    ensures NamedFrom(RunSession(s, events, choice).captures, s.loop.serial)
    decreases |events|, 0
  {
    var step := StepCaptureLoop(s.loop, s.flag, choice);
    var s' := Session(s.flag, step.loop);
    SessionCaptures(s', events[1..], choice);
    CameraTurnUnfold(s, events, choice);
    if s.flag {
      ShiftMod(s.loop.serial, |RunSession(s', events[1..], choice).captures|, SerialModulus);
      ConsNamedFrom(step.captured.value, RunSession(s', events[1..], choice).captures, s.loop.serial);
    }
  }

  /** Captures copying consecutive canned images, the first of them being
      the one used for capture number `index` of the activation. */
  predicate FixturesFrom(captures: seq<Capture>, index: nat) {
    forall k :: 0 <= k < |captures| ==>
      captures[k].fixture == Some((index + k) % FixtureCount + 1)
  }

  /** Messages that never clear the flag: each either carries no
      `client_count` or carries a non-zero one. */
  predicate KeepsActive(events: seq<Event>) {
    forall i :: 0 <= i < |events| && events[i].Received? ==> HandleServerMessage(true, events[i].msg)
  }

  lemma KeepsActiveTail(events: seq<Event>)
    requires |events| > 0 && KeepsActive(events)
    ensures KeepsActive(events[1..])
  {
    forall i | 0 <= i < |events[1..]| && events[1..][i].Received?
      ensures HandleServerMessage(true, events[1..][i].msg)
    {
      assert events[1..][i] == events[i + 1];
    }
  }

  /** One received message, unfolded. */
  lemma ReceivedUnfold(s: Session, events: seq<Event>, choice: CameraChoice)
    requires |events| > 0 && events[0].Received?
    ensures RunSession(s, events, choice)
      == RunSession(Session(HandleServerMessage(s.flag, events[0].msg), s.loop), events[1..], choice)
  {
  }

  /** With the fake camera, capture number k of an activation that starts in
      standby copies canned image k mod 10 + 1, whatever messages arrive in
      between as long as none clears the flag: the counter restarts at 1
      each time the camera scope is entered. */
  lemma {:induction false} FakeActivationFixtures(s: Session, events: seq<Event>)
    requires s.flag && ValidLoop(s.loop) && s.loop.phase.Standby? && KeepsActive(events)
    ensures FixturesFrom(RunSession(s, events, UseFakeCamera).captures, 0)
    decreases |events|
  {
    if |events| > 0 {
      KeepsActiveTail(events);
      if events[0].Received? {
        ReceivedUnfold(s, events, UseFakeCamera);
        FakeActivationFixtures(Session(true, s.loop), events[1..]);
      } else {
        var step := StepCaptureLoop(s.loop, true, UseFakeCamera);
        CameraTurnUnfold(s, events, UseFakeCamera);
        StandbyFakeTurn(s.loop);
        ActiveFakeFixtures(Session(true, step.loop), events[1..], 1);
        var rest := RunSession(Session(true, step.loop), events[1..], UseFakeCamera);
        ConsFixturesFrom(step.captured.value, rest.captures, 0);
      }
    }
  }

  lemma ConsFixturesFrom(c: Capture, rest: seq<Capture>, index: nat)
    requires c.fixture == Some(index % FixtureCount + 1)
    requires FixturesFrom(rest, index + 1)
    ensures FixturesFrom([c] + rest, index)
  {
    forall k | 0 < k < |[c] + rest|
      ensures ([c] + rest)[k].fixture == Some((index + k) % FixtureCount + 1)
    {
      assert ([c] + rest)[k] == rest[k - 1];
    }
  }

  /** The first camera turn of an activation with the fake camera. */
  lemma StandbyFakeTurn(l: CaptureLoop)
    requires ValidLoop(l) && l.phase.Standby?
    ensures var step := StepCaptureLoop(l, true, UseFakeCamera);
      && ValidLoop(step.loop) && step.loop.phase.Active? && step.loop.phase.camera.Fake?
      && step.loop.phase.camera.fake.serial == 1 % FixtureCount + 1
      && step.captured.value.fixture == Some(0 % FixtureCount + 1)
  {
  }

  /** One camera turn of an activation whose fake camera has made `index`
      captures. */
  lemma ActiveFakeTurn(l: CaptureLoop, index: nat)
    requires ValidLoop(l) && l.phase.Active? && l.phase.camera.Fake?
    requires l.phase.camera.fake.serial == index % FixtureCount + 1
    ensures var step := StepCaptureLoop(l, true, UseFakeCamera);
      && ValidLoop(step.loop) && step.loop.phase.Active? && step.loop.phase.camera.Fake?
      && step.loop.phase.camera.fake.serial == (index + 1) % FixtureCount + 1
      && step.captured.value.fixture == Some(index % FixtureCount + 1)
  {
    assert (index % FixtureCount + 1) % FixtureCount == (index + 1) % FixtureCount;
  }

  /** Helper for FakeActivationFixtures: inside an activation whose fake
      camera has made `index` captures. */
  lemma {:induction false} ActiveFakeFixtures(s: Session, events: seq<Event>, index: nat)
    requires s.flag && ValidLoop(s.loop) && s.loop.phase.Active? && s.loop.phase.camera.Fake?
    requires s.loop.phase.camera.fake.serial == index % FixtureCount + 1
    requires KeepsActive(events)
    ensures FixturesFrom(RunSession(s, events, UseFakeCamera).captures, index)
    decreases |events|
  {
    if |events| > 0 {
      KeepsActiveTail(events);
      if events[0].Received? {
        ReceivedUnfold(s, events, UseFakeCamera);
        ActiveFakeFixtures(Session(true, s.loop), events[1..], index);
      } else {
        var step := StepCaptureLoop(s.loop, true, UseFakeCamera);
        CameraTurnUnfold(s, events, UseFakeCamera);
        ActiveFakeTurn(s.loop, index);
        ActiveFakeFixtures(Session(true, step.loop), events[1..], index + 1);
        var rest := RunSession(Session(true, step.loop), events[1..], UseFakeCamera);
        ConsFixturesFrom(step.captured.value, rest.captures, index);
      }
    }
  }

  /** A new connection keeps the process-wide flag but starts a new capture
      task, so the sequence number restarts at 0. */
  function NewConnection(s: Session): (r: Session)
    ensures r.flag == s.flag
    ensures ValidLoop(r.loop) && r.loop.phase.Standby? && r.loop.serial == 0
  {
    Session(s.flag, StartCaptureLoop())
  }

  /** Hence the first capture of every connection is `image00.jpg`. */
  lemma FirstCaptureOfConnection(s: Session, events: seq<Event>, choice: CameraChoice)
    ensures var run := RunSession(NewConnection(s), events, choice);
      |run.captures| > 0 ==> CaptureFilename(run.captures[0].serial) == "image00.jpg"
  {
    SessionCaptures(NewConnection(s), events, choice);
  }

  /* ---------------- Start-up and reconnection ---------------- */

  /** The errno Python reports when a directory already exists (Linux). */
  const EEXIST: int := 17

  /** `os.mkdir` on a file system whose directories are `dirs` and whose
      other entries (regular files and the like) are `files`: it fails with
      EEXIST when anything is at the path already; `fault` is an error the
      operating system reports instead. */
  function Mkdir(dirs: set<string>, files: set<string>, path: string, fault: Option<int>)
    : (r: Result<set<string>, int>)
    ensures fault.Some? ==> r == Err(fault.value)
    ensures fault.None? && (path in dirs || path in files) ==> r == Err(EEXIST)
    ensures fault.None? && path !in dirs && path !in files ==> r == Ok(dirs + {path})
  {
    if fault.Some? then Err(fault.value)
    else if path in dirs || path in files then Err(EEXIST)
    else Ok(dirs + {path})
  }

  /** Creating the output directory: EEXIST is swallowed, every other
      error is raised. EEXIST is swallowed also when the path is taken by
      something other than a directory, and then start-up carries on
      without the directory. */
  function PrepareCamDir(dirs: set<string>, files: set<string>, path: string, fault: Option<int>)
    : (r: Result<set<string>, int>)
    ensures fault.None? && path !in files ==> r == Ok(dirs + {path})
    ensures fault.None? && path in files ==> r == Ok(dirs)
    ensures fault == Some(EEXIST) ==> r == Ok(dirs)
    ensures fault.Some? && fault.value != EEXIST ==> r == Err(fault.value)
    ensures r.Ok? ==> r.value == dirs || r.value == dirs + {path}
  {
    match Mkdir(dirs, files, path, fault)
    case Ok(d) => Ok(d)
    case Err(e) =>
      if e == EEXIST then
        assert fault.None? && path !in files ==> dirs + {path} == dirs;
        Ok(dirs)
      else Err(e)
  }

  /** What the outer loop does with the exception that ended an attempt. */
  datatype Recovery = RetryAfter(delay: nat) | Propagate(failure: Failure)

  const RefusedDelay: nat := 5
  const ClosedDelay: nat := 1

  function ClassifyFailure(f: Failure): (r: Recovery)
    ensures r.Propagate? <==> f.Unclassified?
    ensures r.Propagate? ==> r.failure == f
    ensures f == ConnectionRefused || f == InvalidHandshake ==> r == RetryAfter(RefusedDelay)
    ensures f.ConnectionClosed? ==> r == RetryAfter(ClosedDelay)
  {
    match f
    case ConnectionRefused => RetryAfter(RefusedDelay)
    case InvalidHandshake => RetryAfter(RefusedDelay)
    case ConnectionClosed(_, _) => RetryAfter(ClosedDelay)
    case Unclassified(_) => Propagate(f)
  }

  datatype DriverRun = DriverRun(delays: seq<nat>, fatal: Option<Failure>)

  /** The outer loop over successive attempts, each ending with the given
      failure (no attempt ends any other way): it sleeps after each
      classified failure and stops at the first unclassified one. */
  function Drive(attempts: seq<Failure>): (r: DriverRun)
    ensures |r.delays| <= |attempts|
    ensures forall i :: 0 <= i < |r.delays| ==>
      !attempts[i].Unclassified? && ClassifyFailure(attempts[i]) == RetryAfter(r.delays[i])
    ensures r.fatal.None? <==> forall i :: 0 <= i < |attempts| ==> !attempts[i].Unclassified?
    ensures r.fatal.None? ==> |r.delays| == |attempts|
    ensures r.fatal.Some? ==> |r.delays| < |attempts| && r.fatal.value == attempts[|r.delays|]
    ensures r.fatal.Some? ==> r.fatal.value.Unclassified?
  {
    if |attempts| == 0 then DriverRun([], None)
    else
      match ClassifyFailure(attempts[0])
      case Propagate(f) => DriverRun([], Some(f))
      case RetryAfter(d) =>
        var rest := Drive(attempts[1..]);
        DriverRun([d] + rest.delays, rest.fatal)
  }
}

=== FILE: config_merge.dfy ===
/**
 Merging the runtime configuration into the static one before the
 configuration templates are expanded: for each runtime key the static value
 is kept when it is truthy, and the runtime value is used otherwise.
 */
module ConfigMerge {
  import opened Values

  type Config = map<string, Value>

  /** `config[key] || runtime_config[key]`; a missing static key reads as
      `undefined`, which is falsy. */
  function Pick(config: Config, runtime: Config, key: string): (v: Value)
    requires key in runtime
    ensures key in config && JsTruthy(config[key]) ==> v == config[key]
    ensures !(key in config && JsTruthy(config[key])) ==> v == runtime[key]
  {
    var current := if key in config then config[key] else Undefined;
    if JsTruthy(current) then current else runtime[key]
  }

  function Merge(config: Config, runtime: Config): (r: Config)
    ensures r.Keys == config.Keys + runtime.Keys
    ensures forall k :: k in runtime ==> r[k] == Pick(config, runtime, k)
    ensures forall k :: k in config && k !in runtime ==> r[k] == config[k]
  {
    map k | k in config.Keys + runtime.Keys :: if k in runtime then Pick(config, runtime, k) else config[k]
  }

  /** The loop over the runtime keys, updating the configuration in place,
      in whatever order the keys are enumerated (a key listed twice does no
      harm). */
  method MergeLoop(config: Config, runtime: Config, order: seq<string>) returns (r: Config)
    requires forall k :: k in runtime <==> k in order
    ensures r == Merge(config, runtime)
  {
    r := config;
    var i := 0;
    while i < |order|
      invariant 0 <= i <= |order|
      invariant forall k :: k in r <==> k in config || k in order[..i]
      invariant forall k :: k in r && k in order[..i] ==> r[k] == Pick(config, runtime, k)
      invariant forall k :: k in r && k !in order[..i] ==> r[k] == config[k]
    {
      var key := order[i];
      r := r[key := Pick(r, runtime, key)];
      assert order[..i + 1] == order[..i] + [key];
      i := i + 1;
    }
    assert order[..|order|] == order;
    var m := Merge(config, runtime);
    assert r.Keys == m.Keys;
    assert forall k :: k in r ==> r[k] == m[k];
  }

  /** A truthy static value is never replaced. */
  lemma TruthyStaticWins(config: Config, runtime: Config, key: string)
    requires key in config && JsTruthy(config[key])
    ensures key in Merge(config, runtime) && Merge(config, runtime)[key] == config[key]
  {
  }

  /** Merging the same runtime configuration again changes nothing. */
  lemma MergeIdempotent(config: Config, runtime: Config)
    ensures Merge(Merge(config, runtime), runtime) == Merge(config, runtime)
  {
    var once := Merge(config, runtime);
    var twice := Merge(once, runtime);
    forall k | k in runtime
      ensures twice[k] == once[k]
    {
      if !(k in config && JsTruthy(config[k])) {
        assert once[k] == runtime[k];
      }
    }
    assert twice.Keys == once.Keys;
  }
}

=== FILE: pipeline.dfy ===
/**
 How the pieces meet: the coordinator's count messages drive the daemon's
 activation flag, and the daemon's image notifications become viewer URLs.
 */
module Pipeline {
  import opened Values
  import CamDaemon
  import CamHub

  /** The decoded form of the hub's `{client_count: n}` message. */
  function CountMessage(e: CamHub.Emission): (m: CamDaemon.Message)
    requires e.SendCount?
    ensures m.Keys == {"client_count"} && m["client_count"] == Num(e.count)
  {
    map["client_count" := Num(e.count)]
  }

  /** The last count a daemon receives decides whether it captures; a count
      driven below zero by unmatched disconnects still switches capture on. */
  lemma CountDrivesActivation(flag: bool, e: CamHub.Emission)
    requires e.SendCount?
    ensures CamDaemon.HandleServerMessage(flag, CountMessage(e)) <==> e.count != 0
  {
  }

  /** A capture notification reaches the viewers as the image URL prefix
      followed by the capture's file name. */
  lemma NotificationBecomesUrl(h: CamHub.Hub, c: CamDaemon.Capture)
    ensures CamHub.OnManagerMessage(h, CamDaemon.Notification(c))
      == [CamHub.ClientImage(h.camImgUrl + CamDaemon.CaptureFilename(c.serial))]
  {
  }

  /** With the hub as installed, a notification for sequence number n
      becomes the URL `/cam/img/imageNN.jpg`. */
  lemma InstalledHubUrl(c: CamDaemon.Capture)
    ensures CamHub.OnManagerMessage(CamHub.NewHub(CamHub.DefaultCamImgUrl), CamDaemon.Notification(c))
      == [CamHub.ClientImage("/cam/img/" + CamDaemon.CaptureFilename(c.serial))]
  {
  }
}

=== FILE: values.dfy ===
/**
 Values exchanged by the camera daemon, the coordinator and the web client,
 once their JSON has been decoded: a small value type, the two languages'
 truthiness rules, JavaScript's conversions to text, and decimal formatting
 of integers (the system only ever formats integers, never fractions).
 */
module Values {

  datatype Option<T> = None | Some(value: T)

  datatype Result<T, E> = Ok(value: T) | Err(error: E)

  /** A decoded JSON (or JavaScript) value. `Obj` stands for a JSON object
      with `size` keys; its contents never matter to the code modelled here. */
  datatype Value =
    | Undefined
    | Null
    | Bool(b: bool)
    | Num(n: int)
    | Str(s: string)
    | Obj(size: nat)

  /** The exception JavaScript raises when `.toString()` is called on
      `undefined` or `null`. */
  datatype JsError = TypeError

  /** JavaScript truthiness: `undefined`, `null`, `false`, `0` and `""` are falsy. */
  predicate JsTruthy(v: Value) {
    match v
    case Undefined => false
    case Null => false
    case Bool(b) => b
    case Num(n) => n != 0
    case Str(s) => s != ""
    case Obj(_) => true
  }

  /** Python truthiness of a decoded JSON value: `None`, `False`, `0`, `""`
      and the empty dict are falsy. */
  predicate PyTruthy(v: Value) {
    match v
    case Undefined => false
    case Null => false
    case Bool(b) => b
    case Num(n) => n != 0
    case Str(s) => s != ""
    case Obj(size) => size != 0
  }

  /** Python's `v == 0`; `False == 0` holds in Python. */
  predicate PyEqualsZero(v: Value) {
    v == Num(0) || v == Bool(false)
  }

  predicate IsDigit(c: char) {
    '0' <= c <= '9'
  }

  predicate AllDigits(s: string) {
    forall i :: 0 <= i < |s| ==> IsDigit(s[i])
  }

  function DigitValue(c: char): (d: nat)
    requires IsDigit(c)
    ensures d < 10
  {
    c as int - '0' as int
  }

  function DigitChar(d: nat): (c: char)
    requires d < 10
    ensures IsDigit(c) && DigitValue(c) == d
  {
    ('0' as int + d) as char
  }

  /** Reads a string of decimal digits back as a number. */
  function DecimalValue(s: string): (n: nat)
    requires AllDigits(s)
  {
    if |s| == 0 then 0
    else DecimalValue(s[..|s| - 1]) * 10 + DigitValue(s[|s| - 1])
  }

  /** The shortest decimal numeral of `n`: digits only, no leading zero. */
  function NatToDecimal(n: nat): (r: string)
    ensures |r| > 0 && AllDigits(r)
    ensures DecimalValue(r) == n
    ensures r[0] == '0' ==> r == "0"
    ensures n < 10 <==> |r| == 1
  {
    if n < 10 then [DigitChar(n)]
    else
      var prefix := NatToDecimal(n / 10);
      var r := prefix + [DigitChar(n % 10)];
      assert r[..|r| - 1] == prefix;
      r
  }

  /** JavaScript's and Python's text for an integer: a minus sign for
      negative numbers, then the decimal numeral of the magnitude. */
  function IntToDecimal(i: int): (r: string)
    ensures |r| > 0
    ensures i >= 0 ==> AllDigits(r) && DecimalValue(r) == i
    ensures i < 0 ==> r[0] == '-' && AllDigits(r[1..]) && DecimalValue(r[1..]) == -i
  {
    if i < 0 then "-" + NatToDecimal(-i) else NatToDecimal(i)
  }

  /** Python's `'%02i' % i`: at least two characters, zero-padded on the
      left when a non-negative number has one digit. */
  function ZeroPad2(i: int): (r: string)
    ensures |r| >= 2
    ensures 0 <= i < 100 ==> |r| == 2 && AllDigits(r) && DecimalValue(r) == i
    ensures 0 <= i < 100 ==> r[0] == DigitChar(i / 10) && r[1] == DigitChar(i % 10)
  {
    if 0 <= i < 10 then
      var r := ['0', DigitChar(i)];
      assert r[..1] == ['0'] && ['0'][..0] == [];
      r
    else
      var r := IntToDecimal(i);
      if i >= 0 then
        assert r == NatToDecimal(i / 10) + [DigitChar(i % 10)];
        r
      else r
  }

  /** JavaScript's `v.toString()`: throws on `undefined` and `null`. */
  function JsToString(v: Value): (r: Result<string, JsError>)
    ensures r.Err? <==> v == Undefined || v == Null
    ensures v.Str? ==> r == Ok(v.s)
    ensures v.Num? ==> r == Ok(IntToDecimal(v.n))
  {
    match v
    case Undefined => Err(TypeError)
    case Null => Err(TypeError)
    case Bool(b) => Ok(if b then "true" else "false")
    case Num(n) => Ok(IntToDecimal(n))
    case Str(s) => Ok(s)
    case Obj(_) => Ok("[object Object]")
  }

  /** JavaScript's `String(v)`, as used by `"text" + v`: never throws. */
  function JsConcatText(v: Value): (r: string)
    ensures JsToString(v).Ok? ==> r == JsToString(v).value
    ensures v == Undefined ==> r == "undefined"
    ensures v == Null ==> r == "null"
  {
    match v
    case Undefined => "undefined"
    case Null => "null"
    case _ => JsToString(v).value
  }
}

=== FILE: web_console.dfy ===
/**
 The web client's console and its connection-status messages. The console
 is a text buffer that is only ever appended to; the three connection flags
 decide which status lines reach it as socket events arrive.
 */
module WebConsole {
  import opened Values

  /* ---------------- The console buffer ---------------- */

  predicate IsPrefix(a: string, b: string) {
    |a| <= |b| && b[..|a|] == a
  }

  predicate EndsWithNewline(s: string) {
    |s| > 0 && s[|s| - 1] == '\n'
  }

  /** JavaScript's `Array.prototype.join`. */
  function Join(parts: seq<string>, sep: string): (r: string)
    decreases |parts|
  {
    if |parts| == 0 then ""
    else if |parts| == 1 then parts[0]
    else parts[0] + sep + Join(parts[1..], sep)
  }

  /** Joining one more part adds exactly one separator and that part. */
  lemma {:induction false} JoinSnoc(parts: seq<string>, p: string, sep: string)
    requires |parts| > 0
    ensures Join(parts + [p], sep) == Join(parts, sep) + sep + p
    decreases |parts|
  {
    if |parts| > 1 {
      assert (parts + [p])[1..] == parts[1..] + [p];
      JoinSnoc(parts[1..], p, sep);
    }
  }

  predicate AllPrintable(args: seq<Value>) {
    forall i :: 0 <= i < |args| ==> JsToString(args[i]).Ok?
  }

  /** The text of each argument, in order. */
  function Stringified(args: seq<Value>): (msgs: seq<string>)
    requires AllPrintable(args)
    ensures |msgs| == |args|
    ensures forall i :: 0 <= i < |args| ==> msgs[i] == JsToString(args[i]).value
  {
    seq(|args|, i requires 0 <= i < |args| => JsToString(args[i]).value)
  }

  /** The loop that converts the arguments one by one; the first argument
      without a `toString` stops it with a `TypeError`. */
  method StringifyArgs(args: seq<Value>) returns (ok: bool, msgs: seq<string>)
    ensures ok <==> AllPrintable(args)
    ensures ok ==> msgs == Stringified(args)
  {
    msgs := [];
    var i := 0;
    while i < |args|
      invariant 0 <= i <= |args|
      invariant |msgs| == i
      invariant forall k :: 0 <= k < i ==> JsToString(args[k]).Ok? && msgs[k] == JsToString(args[k]).value
    {
      var text := JsToString(args[i]);
      if text.Err? {
        return false, msgs;
      }
      msgs := msgs + [text.value];
      i := i + 1;
    }
    ok := true;
  }

  /** Appends the arguments' text, separated by single spaces, and the
      terminator; or raises, leaving the buffer as it was. */
  function PrintCommon(buf: string, args: seq<Value>, terminator: string): (r: Result<string, JsError>)
    ensures r.Err? <==> !AllPrintable(args)
    ensures r.Ok? ==> IsPrefix(buf, r.value)
    ensures r.Ok? ==> r.value[|buf|..] == Join(Stringified(args), " ") + terminator
  {
    if AllPrintable(args) then
      var r := buf + Join(Stringified(args), " ") + terminator;
      assert r[|buf|..] == Join(Stringified(args), " ") + terminator;
      Ok(r)
    else Err(TypeError)
  }

  /** `print`: the arguments' text on a line that it ends. */
  function Print(buf: string, args: seq<Value>): (r: Result<string, JsError>)
    ensures r.Err? <==> !AllPrintable(args)
    ensures r.Ok? ==> IsPrefix(buf, r.value) && EndsWithNewline(r.value)
    ensures r.Ok? ==> r.value == buf + Join(Stringified(args), " ") + "\n"
  {
    PrintCommon(buf, args, "\n")
  }

  /** `princ`: the arguments' text, leaving the line open. */
  function Princ(buf: string, args: seq<Value>): (r: Result<string, JsError>)
    ensures r.Err? <==> !AllPrintable(args)
    ensures r.Ok? ==> IsPrefix(buf, r.value)
    ensures r.Ok? ==> |r.value| == |buf| + |Join(Stringified(args), " ")|
    ensures r.Ok? ==> r.value == buf + Join(Stringified(args), " ")
  {
    PrintCommon(buf, args, "")
  }

  /** `print` is `princ` followed by a newline, and both raise together. */
  lemma PrintIsPrincThenNewline(buf: string, args: seq<Value>)
    ensures Print(buf, args).Ok? <==> Princ(buf, args).Ok?
    ensures Print(buf, args).Ok? ==> Print(buf, args).value == Princ(buf, args).value + "\n"
  {
    if AllPrintable(args) {
      var text := Join(Stringified(args), " ");
      assert Print(buf, args).value == buf + text + "\n";
      assert Princ(buf, args).value == buf + text + "";
    }
  }

  /** A caption followed by one value: the caption, one space, the value's text. */
  lemma PrintLabelled(buf: string, caption: string, v: Value, terminator: string)
    ensures JsToString(v).Ok? ==>
      PrintCommon(buf, [Str(caption), v], terminator)
        == Ok(buf + caption + " " + JsToString(v).value + terminator)
    ensures JsToString(v).Err? ==> PrintCommon(buf, [Str(caption), v], terminator) == Err(TypeError)
  {
    if JsToString(v).Ok? {
      var args := [Str(caption), v];
      assert AllPrintable(args);
      assert Stringified(args) == [caption] + [JsToString(v).value];
      JoinSnoc([caption], JsToString(v).value, " ");
      assert Join([caption], " ") == caption;
      assert Join(Stringified(args), " ") == caption + " " + JsToString(v).value;
      assert PrintCommon(buf, args, terminator)
        == Ok(buf + Join(Stringified(args), " ") + terminator);
      assert buf + Join(Stringified(args), " ") + terminator
        == buf + caption + " " + JsToString(v).value + terminator;
    } else {
      assert !JsToString([Str(caption), v][1]).Ok?;
    }
  }

  /** Printing plain text. */
  lemma PrintText(buf: string, text: string, terminator: string)
    ensures PrintCommon(buf, [Str(text)], terminator) == Ok(buf + text + terminator)
  {
    assert AllPrintable([Str(text)]);
    assert Stringified([Str(text)]) == [text];
  }

  /** Ends the current line unless it is already ended. */
  function Terpri(buf: string): (r: string)
    ensures EndsWithNewline(r)
    ensures IsPrefix(buf, r)
    ensures EndsWithNewline(buf) ==> r == buf
    ensures !EndsWithNewline(buf) ==> r == buf + "\n"
  {
    if EndsWithNewline(buf) then buf else buf + "\n"
  }

  lemma TerpriIdempotent(buf: string)
    ensures Terpri(Terpri(buf)) == Terpri(buf)
  {
  }

  /* ---------------- Connection status ---------------- */

  const ActiveText := " active."
  const ConnectingText := "]]] Connecting to A2-F1..."
  const ConnectedText := " connected."
  const UnableText := "]]] Unable to connect to A2-F1:"
  const LostText := "]]] Connection to A2-F1 lost.  Attempting to reconnect..."
  const FailedReconnectText := "]]] Failed to reconnect to A2-F1:"
  const FailedConnectText := "]]] Failed to connect to A2-F1:"
  const OfflineText := "]]] Connection offline."

  datatype Client = Client(buf: string, ok: bool, everOk: bool, reconnectError: Value)

  predicate FlagsConsistent(c: Client) {
    c.ok ==> c.everOk
  }

  /** Start-up: the page's console text, then the boot lines; not connected,
      never connected, no reconnection error yet. */
  function Init(page: string): (c: Client)
    ensures c.buf == page + ActiveText + "\n" + ConnectingText
    ensures !c.ok && !c.everOk && c.reconnectError == Undefined
  {
    PrintText(page, ActiveText, "\n");
    PrintText(page + ActiveText + "\n", ConnectingText, "");
    var b := Print(page, [Str(ActiveText)]).value;
    Client(Princ(b, [Str(ConnectingText)]).value, false, false, Undefined)
  }

  datatype ClientEvent =
    | Connect
    | Error(reason: Value)
    | Reconnecting(attempts: Value)
    | ReconnectFailed
    | ReconnectError(reason: Value)
    | ConsoleMessage(message: Value)

  /** The state after a handler, and whether it raised part-way. */
  datatype Outcome = Outcome(client: Client, raised: bool)

  function OnConnect(c: Client): (r: Outcome)
    ensures r.client.ok && r.client.everOk && !r.raised
    ensures r.client.buf == c.buf + ConnectedText + "\n"
    ensures r.client.reconnectError == c.reconnectError
  {
    PrintText(c.buf, ConnectedText, "\n");
    Outcome(c.(buf := Print(c.buf, [Str(ConnectedText)]).value, ok := true, everOk := true), false)
  }

  function OnError(c: Client, reason: Value): (r: Outcome)
    ensures r.client.(buf := c.buf) == c
    ensures r.raised <==> JsToString(reason).Err?
    ensures !r.raised ==>
      r.client.buf == Terpri(c.buf) + UnableText + " " + JsToString(reason).value + "\n"
    ensures r.raised ==> r.client.buf == Terpri(c.buf)
  {
    var b := Terpri(c.buf);
    PrintLabelled(b, UnableText, reason, "\n");
    match Print(b, [Str(UnableText), reason])
    case Ok(b') => Outcome(c.(buf := b'), false)
    case Err(_) => Outcome(c.(buf := b), true)
  }

  /** Reports the lost connection only while it is believed to be up, and
      then marks it down, so repeated attempts add nothing. */
  function OnReconnecting(c: Client): (r: Outcome)
    ensures !r.client.ok && !r.raised
    ensures r.client.everOk == c.everOk && r.client.reconnectError == c.reconnectError
    ensures !c.ok ==> r.client == c
    ensures c.ok ==> r.client.buf == Terpri(c.buf) + LostText
  {
    if c.ok then
      PrintText(Terpri(c.buf), LostText, "");
      Outcome(c.(buf := Princ(Terpri(c.buf), [Str(LostText)]).value, ok := false), false)
    else Outcome(c, false)
  }

  /** Gives up: "reconnect" wording after an earlier connection, otherwise a
      fresh line and "connect" wording; either way the latest reconnection
      error, then the offline line. */
  function OnReconnectFailed(c: Client): (r: Outcome)
    ensures r.client.(buf := c.buf) == c
    ensures r.raised <==> JsToString(c.reconnectError).Err?
    ensures !r.raised ==>
      r.client.buf
        == (if c.everOk then c.buf else Terpri(c.buf))
           + (if c.everOk then FailedReconnectText else FailedConnectText)
           + " " + JsToString(c.reconnectError).value + "\n"
           + OfflineText + "\n"
    ensures r.raised ==> r.client.buf == (if c.everOk then c.buf else Terpri(c.buf))
  {
    var start := if c.everOk then c.buf else Terpri(c.buf);
    var caption := if c.everOk then FailedReconnectText else FailedConnectText;
    PrintLabelled(start, caption, c.reconnectError, "\n");
    match Print(start, [Str(caption), c.reconnectError])
    case Err(_) => Outcome(c.(buf := start), true)
    case Ok(b) =>
      PrintText(b, OfflineText, "\n");
      Outcome(c.(buf := Print(b, [Str(OfflineText)]).value), false)
  }

  /** Only remembers the reason; writes nothing. */
  function OnReconnectError(c: Client, reason: Value): (r: Outcome)
    ensures r.client.buf == c.buf && r.client.ok == c.ok && r.client.everOk == c.everOk
    ensures r.client.reconnectError == reason && !r.raised
  {
    Outcome(c.(reconnectError := reason), false)
  }

  function OnConsoleMessage(c: Client, message: Value): (r: Outcome)
    ensures r.client.(buf := c.buf) == c
    ensures r.raised <==> JsToString(message).Err?
    ensures r.raised ==> r.client.buf == c.buf
    ensures !r.raised ==> r.client.buf == c.buf + JsToString(message).value + "\n"
  {
    match Print(c.buf, [message])
    case Ok(b) =>
      assert Stringified([message]) == [JsToString(message).value];
      Outcome(c.(buf := b), false)
    case Err(_) => Outcome(c, true)
  }

  function Handle(c: Client, e: ClientEvent): (r: Outcome)
    ensures IsPrefix(c.buf, r.client.buf)
    ensures c.everOk ==> r.client.everOk
    ensures r.client.everOk ==> c.everOk || e.Connect?
    ensures r.client.ok ==> c.ok || e.Connect?
    ensures FlagsConsistent(c) ==> FlagsConsistent(r.client)
  {
    match e
    case Connect => OnConnect(c)
    case Error(reason) => OnError(c, reason)
    case Reconnecting(_) => OnReconnecting(c)
    case ReconnectFailed => OnReconnectFailed(c)
    case ReconnectError(reason) => OnReconnectError(c, reason)
    case ConsoleMessage(message) => OnConsoleMessage(c, message)
  }

  /** A handler that raises ends early; the next event is handled as usual. */
  function Run(c: Client, events: seq<ClientEvent>): (r: Client)
    decreases |events|
  {
    if |events| == 0 then c else Run(Handle(c, events[0]).client, events[1..])
  }

  /** The console is only ever appended to. */
  lemma {:induction false} RunAppendsOnly(c: Client, events: seq<ClientEvent>)
    ensures IsPrefix(c.buf, Run(c, events).buf)
    decreases |events|
  {
    if |events| > 0 {
      var next := Handle(c, events[0]).client;
      RunAppendsOnly(next, events[1..]);
    }
  }

  predicate HasConnect(events: seq<ClientEvent>) {
    exists i :: 0 <= i < |events| && events[i].Connect?
  }

  /** `connection_ever_ok` is set exactly when some connect happened, and is
      never reset. */
  lemma {:induction false} EverOkIffConnected(c: Client, events: seq<ClientEvent>)
    ensures Run(c, events).everOk <==> c.everOk || HasConnect(events)
    decreases |events|
  {
    if |events| > 0 {
      EverOkIffConnected(Handle(c, events[0]).client, events[1..]);
      if HasConnect(events[1..]) {
        var i :| 0 <= i < |events[1..]| && events[1..][i].Connect?;
        assert events[i + 1].Connect?;
      }
      if HasConnect(events) && !events[0].Connect? {
        var i :| 0 <= i < |events| && events[i].Connect?;
        assert events[1..][i - 1].Connect?;
      }
    }
  }

  /** Number of "connection lost" lines written along a run. */
  function LostLines(c: Client, events: seq<ClientEvent>): (n: nat)
    decreases |events|
  {
    if |events| == 0 then 0
    else (if events[0].Reconnecting? && c.ok then 1 else 0) + LostLines(Handle(c, events[0]).client, events[1..])
  }

  function Connects(events: seq<ClientEvent>): (n: nat)
    decreases |events|
  {
    if |events| == 0 then 0 else (if events[0].Connect? then 1 else 0) + Connects(events[1..])
  }

  /** At most one "connection lost" line per established connection. */
  lemma {:induction false} LostAtMostOncePerConnection(c: Client, events: seq<ClientEvent>)
    ensures LostLines(c, events) <= (if c.ok then 1 else 0) + Connects(events)
    decreases |events|
  {
    if |events| > 0 {
      LostAtMostOncePerConnection(Handle(c, events[0]).client, events[1..]);
    }
  }
}
